=== FILE: README.md ===
# BI dashboard analytics core, modelled in Dafny

This project models the computations behind a read-only BI dashboard. The dashboard answers fixed questions over static CRM and backend-event tables. The integer and set computations behind its customer, retention, funnel and win-rate views are modelled here as pure functions over sequences of immutable records:

- **Customers.** The closed-won deals, their de-duplicated company ids (`won_company_ids`), the "Total Customers" metric, and the companies that are customers (`customer_cos`).
- **Cohort retention.** Each event becomes a calendar month, written as the integer `year * 12 + (month - 1)`. A user's cohort is the earliest month among their events. An event's `month_number` is its month minus its user's cohort. For each cohort and each offset 0..3, the table counts the distinct users active at that offset. The most recent cohort is then dropped.
- **Stage attribution.** Five nullable stage-entry dates have a fixed pipeline order: Pre-pitch, Pitching, Product Testing, Price Offering, Contract Negotiation. `last_stage` is the last stage in that order that has a date, or "Unknown" when none has one.
- **Funnel aggregates.**
  - The lost deals, and the share of them lost at Contract Negotiation.
  - The per-stage funnel counts.
  - The Won/Lost/Open outcomes of the deals that entered Contract Negotiation.
  - The monthly Won/Lost tallies and win rate of closed deals.

Modules:

- `Wrappers` holds `Option` and `Result`.
- `Seqs` holds the mask filter, `unique`, the sorted group-by keys and their lemmas.
- `Ratios` holds percentages as exact ratios.
- `Calendar` holds month indices.
- `Deals` holds the deal record, `last_stage` and the outcome classification.
- `Customers`, `Retention`, `Funnel` and `WinRate` hold the four groups of computations listed above.

Inputs are the already-parsed tables. A deal date that is missing or unparseable is `None`, because those columns are parsed with coercion. Event timestamps are parsed without coercion, so an unparseable one stops the load; the model assumes every event has a timestamp, and hence a month (see Left out). The company id of a deal is optional, because `unique()` keeps a NaN id as one more distinct value and `len` counts it. Percentages are `Ratio(num, den)`, with the percentage being `100 * num / den`.

## Model

| member | source | states |
|---|---|---|
| Calendar.PeriodOf | app.py:198 | a (year, month) pair maps to a month index from which the same year and month are recovered, so month differences are whole-month offsets |
| Retention.FirstMonth | app.py:199 | a user's cohort month is None exactly for a user without events; otherwise it is the month of one of the user's events and no later than any of them |
| Retention.MonthNumber | app.py:200-201 | every event's month_number is non-negative, because the cohort is the user's minimum month |
| Retention.FirstEventHasOffsetZero | app.py:198-201 | every user has an event at offset 0 of their own cohort |
| Retention.RetainedUsersStarted | app.py:203-206 | every user counted at offset k of a cohort is also counted at offset 0 of that cohort |
| Retention.CohortHasStarter | app.py:199-206 | every cohort has at least one starting user, so M0 is never zero |
| Retention.Cohorts | app.py:203-207 | the table index is the cohort months, each once, strictly ascending, and exactly the cohorts of the events |
| Retention.RetentionTable | app.py:203-213 | rows are strictly ascending by cohort and each row holds the distinct-user counts of its own cohort at offsets 0..3 |
| Retention.RetentionRowCount | app.py:203-213 | the table is empty without events and otherwise has exactly one row fewer than there are distinct cohorts |
| Retention.LatestCohort | app.py:213 | the most recent cohort is a cohort and no cohort is later |
| Retention.RetentionDropsLatest | app.py:213 | a cohort appears in the table exactly when it is earlier than the most recent cohort |
| Retention.RetentionBounded | app.py:203-212 | every row has M0 >= 1 and M1, M2, M3 each at most M0 |
| Retention.ZeroCell | app.py:207 | a (cohort, offset) cell is 0 exactly when no user of that cohort has an event at that offset |
| Retention.RetentionRate | app.py:210-212 | the Mk retention ratio is 0 exactly when no user returned at offset k, and is a percentage exactly when Mk <= M0 |
| Retention.TableRetentionRate | app.py:210-212 | the Mk retention ratio of a table row is the number of the cohort's users active at offset k over the number active at offset 0 |
| Retention.RetentionRatesArePercentages | app.py:210-212 | every M1/M2/M3 retention ratio of the table has a non-zero denominator and lies between 0 and 100 percent |
| Retention.RetentionAsWritten | app.py:207-212 | the code fails exactly when some offset 1..3 occurs in no event at all; when it succeeds it returns the table |
| Retention.AsWrittenFailsOnSparseData | app.py:207-210 | on two users with one event each in consecutive months, the code raises KeyError for M1, while the table with absent cells as 0 is one row (cohort, 1, 0, 0, 0) |
| Retention.JanFebAprScenario | app.py:198-213 | a user active in January, February and April 2024 is in the January cohort with offsets 0, 1 and 3, and nobody is counted in M2; as written the code raises KeyError for M2, and with absent cells read as 0 the table is empty once its only cohort is dropped |
| Deals.Rank | app.py:256-262 | each stage has a position in the fixed pipeline order, and the pipeline holds that stage at that position |
| Deals.LastEnteredAmong | app.py:267-271 | scanning the stages from the end returns None exactly when no stage has a date; otherwise it returns a stage with a date, after which no listed stage has one |
| Deals.LastStage | app.py:267-271 | last_stage is Unknown exactly when all five dates are null; otherwise it names a stage with a date, and no later stage in pipeline order has one |
| Deals.LastStageIsReference | app.py:267-271 | an attribution satisfies the reference definition of "latest stage with a date, else Unknown" if and only if it equals last_stage |
| Deals.LastStageIgnoresDateValues | app.py:267-271 | two deals with the same pattern of null stage dates get the same last_stage, whatever the date values or their chronological order |
| Deals.LabelIsNegotiation | app.py:271-274 | the last_stage label equals "Contract Negotiation" exactly for deals attributed to that stage |
| Deals.LastStageNegotiation | app.py:267-274 | a deal is attributed to Contract Negotiation exactly when it has a Contract Negotiation date |
| Deals.Classify | app.py:309-312 | the outcome is Won if and only if closed-won, Lost if and only if closed and not won, and Open if and only if neither flag is set |
| Customers.WonDeals | app.py:48 | won_deals holds exactly the deals flagged closed-won |
| Customers.WonCompanyIds | app.py:49 | won_company_ids has no duplicates and holds exactly the company ids of the closed-won deals |
| Customers.CustomerCountIsCardinality | app.py:81 | the Total Customers metric equals the number of distinct companies with a closed-won deal |
| Customers.CustomerCompanies | app.py:50 | customer_cos holds exactly the companies that have a closed-won deal, and is no longer than the company table |
| Funnel.LostDeals | app.py:264 | lost_deals holds exactly the closed deals that were not won, each row as often as it occurs in the deal table, so its length (the Total Lost Deals metric and the share's denominator) is the number of lost rows |
| Funnel.LostInNegotiation | app.py:273-274 | lost_in_neg never exceeds the number of lost deals |
| Funnel.LostInNegotiationShare | app.py:275 | with at least one lost deal, the lost-at-negotiation share is a percentage over the lost-deal count |
| Funnel.LostShareIsLostSlice | app.py:273-275 | with at least one lost deal, the lost-at-negotiation share is the pie's Lost slice over the number of lost rows |
| Funnel.EnteredCount | app.py:288-291 | a stage's funnel count is the number of rows with that stage's date; it is at most the number of deals, is 0 exactly when no deal has that stage's date, and equals the number of deals exactly when every deal has it |
| Funnel.FunnelCounts | app.py:288-291 | there is one funnel count per stage, in pipeline order, each counted independently for its own stage |
| Funnel.FunnelNotMonotone | app.py:301-304 | some deal table has a larger funnel count for Pitching than for Pre-pitch, because a deal can skip a stage |
| Funnel.FunnelCoversAttribution | app.py:267-291 | the deals attributed to a stage are never more than that stage's funnel count |
| Funnel.NegotiationDeals | app.py:308 | neg_deals holds exactly the deals with a Contract Negotiation date, and its size is that stage's funnel count |
| Funnel.OutcomesPartitionNegotiation | app.py:308-314 | the Won, Lost and Open counts of the negotiation deals add up to the Contract Negotiation funnel count |
| Funnel.LostInNegotiationIsLostSlice | app.py:264-313 | the "Lost at Contract Negotiation" metric equals the Lost slice of the negotiation-outcome pie |
| Funnel.TallyOutcomes | app.py:308-314 | a single pass over the deals computes the three outcome counts of the negotiation deals, and they add up to the negotiation-deal count |
| WinRate.ClosedDeals | app.py:337-338 | closed holds exactly the closed deals that have a close date |
| WinRate.CloseMonths | app.py:339 | the close-month column holds exactly the close months of the given deals |
| WinRate.RowPartitionsMonth | app.py:340-346 | a month's total equals the number of closed deals of that month, each counted as Won or Lost and never both |
| WinRate.Monthly | app.py:342-349 | there is one row per close month of a closed, dated deal, strictly ascending; each row holds the Won and Lost tallies of its own month, and every row's total is at least 1 |
| WinRate.MonthlyReportsZeroWon | app.py:348-349 | a month is reported with Won = 0 exactly when none of its closed deals was won |
| WinRate.WinRateOf | app.py:350 | the win rate is a percentage, 0 exactly when nothing was won and 100 exactly when nothing was lost |
| WinRate.MonthlyWinRate | app.py:340-350 | every reported month's win rate is the number of its closed deals that were won over the number of its closed deals |
| WinRate.MonthlyTotalsCoverClosed | app.py:342-346 | the monthly totals add up to the number of closed, dated deals: grouping neither loses nor duplicates a deal |

## Left out

- Streamlit page layout, tabs, metric cards, captions and `st.cache_data` are presentation and caching, not logic. This includes the fixed figures quoted in captions.
- Plotly figures, histogram binning and chart styling are calls into a charting library.
- CSV reading and `pd.to_datetime` are file I/O and library date parsing. The model takes already-parsed tables: a date is `Option<Month>`, `None` where coercion gave NaT.
- Floating-point figures are not modelled: total revenue, ACV, revenue per deal type, and the average deal sizes of won and lost negotiation deals.
- The negotiation win rate (`len(won_neg)/len(neg_deals)` at app.py:326) is not modelled. Its operands are the counts that `Funnel.OutcomeCount` and `Funnel.NegotiationDeals` already give. Both are Python integers, so, like the share at app.py:275, the division is unguarded: it raises ZeroDivisionError when no deal has a Contract Negotiation date.
- The per-country and per-industry customer breakdowns (`value_counts`) are not modelled. They are chart-only aggregations.
- The contacts table is not modelled. It is loaded (app.py:25, 41, 43) and never read again; the figure in the caption at app.py:123 is a literal.
- Events with a missing `event_timestamp` are not modelled: `pd.to_datetime` turns an empty cell into NaT. That NaT passes through `to_period` and is skipped by the cohort `min` (app.py:198-199). It then reaches `x.n` at app.py:201 as NaT, where the code most likely raises. `Retention.Event` always carries a month.
- Events with a missing `user_id` are not modelled either: `groupby("user_id")` at app.py:199 drops the NaN key, so the join at app.py:200 gives that row a NaT cohort, and it reaches `x.n` at app.py:201 as NaT, the same failure as a missing timestamp. `Retention.Event` always carries a user.
- Deal amount and deal type are not fields of `Deals.Deal`, because only the float aggregates above (and the per-deal-type revenue table at app.py:160-183) read them. The create date is parsed at app.py:30 and never read again.
- Missing `is_closed` / `is_closed_won` cells are not modelled: `Deals.Deal` types both flags as `bool`. The source tests them with `== True` and `== False` (app.py:48, 264, 310-311, 337, 340), and a blank cell read as NaN equals neither. So a closed deal with a missing `is_closed_won` is left out of `lost_deals` (line 264), yet it is labelled "Lost" at line 311 and tallied as Lost at line 340.
- Funnel.LostInNegotiationIsLostSlice: holds only for deals whose two flags are present. With a missing `is_closed_won` on a closed negotiation deal, the "Lost at Contract Negotiation" metric is one below the pie's Lost slice.
- Retention.RetentionRate: a ratio rather than the percentage rounded to one decimal, because the rounding is floating-point display formatting. Which ratio it is (Mk/M0 of the row's own cohort) is stated by `Retention.TableRetentionRate`.
- Funnel.LostInNegotiationShare: a ratio rather than the rounded integer percentage, for the same reason; `Funnel.LostShareIsLostSlice` states its numerator and denominator. The source does not guard the division (0/0 gives NaN, and `round` rejects NaN), so the model requires at least one lost deal.
- WinRate.WinRateOf: a ratio rather than the percentage rounded to one decimal; `WinRate.MonthlyWinRate` states that it is Won over the month's closed deals.
- WinRate.Monthly: close months are integer month indices ordered numerically. The source sorts "YYYY-MM" strings, which is the same order for four-digit years.

## Findings

| source | as written | input that shows it | evidently intended | confidence | as-written member | corrected member |
|---|---|---|---|---|---|---|
| app.py:207-212 | `unstack(fill_value=0)` creates a column only for the offsets that occur somewhere in the data. The next lines then read `M1`, `M2` and `M3` unconditionally, so the code raises KeyError when no user of any cohort is active at one of those offsets. | Two users with one event each, in consecutive months (`Retention.SparseEvents`); `Retention.AsWrittenFailsOnSparseData` shows the failure; the January/February/April log of `Retention.JanFebAprScenario` fails on M2 | absent (cohort, offset) cells read as 0 in every column, giving the one-row table (cohort, 1, 0, 0, 0) | not executed; high, since unstack only adds columns for existing level values | Retention.RetentionAsWritten | Retention.RetentionTable |

=== FILE: calendar.dfy ===
/** Calendar months as integers: the model of a pandas monthly `Period`. */
module Calendar {

  /** A calendar month as one integer, `year * 12 + (month - 1)`; the
      difference of two months is the whole-month offset `.n` between them. */
  type Month = int

  /** The month index of a (year, month-of-year) pair, `to_period("M")`. */
  function PeriodOf(year: int, monthOfYear: int): (r: Month)
    requires 1 <= monthOfYear <= 12
    ensures YearOf(r) == year && MonthOfYear(r) == monthOfYear
  {
    year * 12 + (monthOfYear - 1)
  }

  /** The year a month index falls in. */
  function YearOf(m: Month): int {
    m / 12
  }

  /** The month of year (1..12) of a month index. */
  function MonthOfYear(m: Month): (r: int)
    ensures 1 <= r <= 12
  {
    m % 12 + 1
  }

  /** Every month index is the period of its own year and month of year. */
  lemma PeriodRoundTrip(m: Month)
    ensures PeriodOf(YearOf(m), MonthOfYear(m)) == m
  {
  }

  /** Month indices order months chronologically: year first, then month. */
  lemma PeriodOrder(y1: int, m1: int, y2: int, m2: int)
    requires 1 <= m1 <= 12 && 1 <= m2 <= 12
    ensures PeriodOf(y1, m1) < PeriodOf(y2, m2) <==> y1 < y2 || (y1 == y2 && m1 < m2)
  {
  }
}

=== FILE: customers.dfy ===
/** The customer derivation: a customer is a company with at least one
    closed-won deal. */
module Customers {
  import opened Wrappers
  import opened Seqs
  import opened Deals

  /** A company as loaded; industry may be missing. */
  datatype Company = Company(companyId: int, country: string, industry: Option<string>)

  /** The closed-won mask. */
  predicate IsWonDeal(d: Deal) {
    d.isClosedWon
  }

  /** `won_deals`: the deals flagged closed-won, in their original order. */
  function WonDeals(deals: seq<Deal>): (r: seq<Deal>)
    ensures forall d :: d in r <==> d in deals && d.isClosedWon
  {
    Filter(deals, IsWonDeal)
  }

  /** The company-id column of a deal table. */
  function CompanyIds(deals: seq<Deal>): (r: seq<Option<int>>)
    ensures |r| == |deals|
    ensures forall i :: 0 <= i < |deals| ==> r[i] == deals[i].companyId
  {
    seq(|deals|, i requires 0 <= i < |deals| => deals[i].companyId)
  }

  /** `won_company_ids`: the distinct company ids of the won deals, in order
      of first appearance. A missing id is kept as one more distinct value,
      as `unique()` keeps NaN. */
  function WonCompanyIds(deals: seq<Deal>): (r: seq<Option<int>>)
    ensures Distinct(r)
    ensures forall id :: id in r <==> exists d :: d in deals && d.isClosedWon && d.companyId == id
  {
    var won := WonDeals(deals);
    var ids := CompanyIds(won);
    assert forall id :: id in ids <==> exists d :: d in won && d.companyId == id by {
      forall id
        ensures id in ids <==> exists d :: d in won && d.companyId == id
      {
        if id in ids {
          var i :| 0 <= i < |ids| && ids[i] == id;
          assert won[i] in won;
        }
        if exists d :: d in won && d.companyId == id {
          var d :| d in won && d.companyId == id;
          var i :| 0 <= i < |won| && won[i] == d;
          assert ids[i] == id;
        }
      }
    }
    Unique(ids)
  }

  /** The set of companies with a closed-won deal (NaN counted as one id). */
  function CustomerIdSet(deals: seq<Deal>): set<Option<int>> {
    set d | d in deals && d.isClosedWon :: d.companyId
  }

  /** The headline "Total Customers" metric: `len(won_company_ids)`. */
  function CustomerCount(deals: seq<Deal>): nat {
    |WonCompanyIds(deals)|
  }

  /** The headline count is the number of distinct companies with a won deal. */
  lemma CustomerCountIsCardinality(deals: seq<Deal>)
    ensures CustomerCount(deals) == |CustomerIdSet(deals)|
  {
    var ids := WonCompanyIds(deals);
    DistinctCardinality(ids);
    assert Elems(ids) == CustomerIdSet(deals);
  }

  /** `customer_cos`: the companies, in table order, whose id is among the
      won deals' company ids. */
  function CustomerCompanies(companies: seq<Company>, deals: seq<Deal>): (r: seq<Company>)
    ensures |r| <= |companies|
    ensures forall c :: c in r <==>
      c in companies && exists d :: d in deals && d.isClosedWon && d.companyId == Some(c.companyId)
  {
    var ids := WonCompanyIds(deals);
    Filter(companies, (c: Company) => Some(c.companyId) in ids)
  }
}

=== FILE: deals.dfy ===
/** The CRM deal record and the two per-deal derivations of the sales-funnel
    tab: the last pipeline stage a deal reached (`last_stage`) and its
    Won / Lost / Open outcome. */
module Deals {
  import opened Wrappers
  import opened Calendar

  /** The five pipeline stages. */
  datatype Stage = PrePitch | Pitching | ProductTesting | PriceOffering | ContractNegotiation

  /** The fixed pipeline order: the one place funnel counting and stage
      attribution take it from. */
  const Pipeline: seq<Stage> := [PrePitch, Pitching, ProductTesting, PriceOffering, ContractNegotiation]

  /** The position of a stage in the pipeline. */
  function Rank(s: Stage): (r: nat)
    ensures r < |Pipeline| && Pipeline[r] == s
  {
    match s
    case PrePitch => 0
    case Pitching => 1
    case ProductTesting => 2
    case PriceOffering => 3
    case ContractNegotiation => 4
  }

  /** The display name of a stage. */
  function StageName(s: Stage): string {
    match s
    case PrePitch => "Pre-pitch"
    case Pitching => "Pitching"
    case ProductTesting => "Product Testing"
    case PriceOffering => "Price Offering"
    case ContractNegotiation => "Contract Negotiation"
  }

  /** A deal as loaded: the company it belongs to (NaN becomes `None`), its
      closed / closed-won flags, and its close date and stage-entry dates,
      each `None` where the source value is missing or unparseable. */
  datatype Deal = Deal(
    dealId: int,
    companyId: Option<int>,
    isClosed: bool,
    isClosedWon: bool,
    closeDate: Option<Month>,
    prePitch: Option<Month>,
    pitching: Option<Month>,
    productTesting: Option<Month>,
    priceOffering: Option<Month>,
    contractNegotiation: Option<Month>)

  /** The month a deal entered stage `s`, if it did. */
  function EnteredAt(d: Deal, s: Stage): Option<Month> {
    match s
    case PrePitch => d.prePitch
    case Pitching => d.pitching
    case ProductTesting => d.productTesting
    case PriceOffering => d.priceOffering
    case ContractNegotiation => d.contractNegotiation
  }

  /** Whether the deal has an entry date for stage `s`. */
  predicate Entered(d: Deal, s: Stage) {
    EnteredAt(d, s).Some?
  }

  /** The result of stage attribution: a stage, or "Unknown". */
  datatype Attribution = Reached(stage: Stage) | Unknown

  /** The label written into the `last_stage` column. */
  function Label(a: Attribution): string {
    match a
    case Reached(s) => StageName(s)
    case Unknown => "Unknown"
  }

  /** Scans `stages` from its end towards its start and returns the first
      stage the deal has an entry date for. */
  function LastEnteredAmong(d: Deal, stages: seq<Stage>): (r: Option<Stage>)
    ensures r.None? <==> forall i :: 0 <= i < |stages| ==> !Entered(d, stages[i])
    ensures r.Some? ==> exists i :: 0 <= i < |stages| && stages[i] == r.value && Entered(d, stages[i])
                                    && forall j :: i < j < |stages| ==> !Entered(d, stages[j])
  {
    if stages == [] then None
    else if Entered(d, stages[|stages| - 1]) then Some(stages[|stages| - 1])
    else
      var init := stages[..|stages| - 1];
      assert forall i :: 0 <= i < |init| ==> init[i] == stages[i];
      LastEnteredAmong(d, init)
  }

  /** `last_stage`: the latest stage in pipeline order with an entry date,
      or `Unknown` when the deal has none. */
  function LastStage(d: Deal): (r: Attribution)
    ensures r == Unknown <==> forall s :: !Entered(d, s)
    ensures r.Reached? ==> Entered(d, r.stage)
    ensures r.Reached? ==> forall s :: Rank(r.stage) < Rank(s) ==> !Entered(d, s)
  {
    match LastEnteredAmong(d, Pipeline)
    case Some(s) => Reached(s)
    case None =>
      assert forall s :: Pipeline[Rank(s)] == s && !Entered(d, s);
      Unknown
  }

  /** The reference meaning of "last stage reached": `a` names a stage with an
      entry date and no later stage has one, or `a` is `Unknown` and no stage
      has one. */
  ghost predicate IsLastStage(d: Deal, a: Attribution) {
    match a
    case Reached(s) => Entered(d, s) && forall t :: Rank(s) < Rank(t) ==> !Entered(d, t)
    case Unknown => forall t :: !Entered(d, t)
  }

  /** `LastStage` is exactly the attribution the reference definition allows. */
  lemma LastStageIsReference(d: Deal, a: Attribution)
    ensures IsLastStage(d, a) <==> a == LastStage(d)
  {
  }

  /** Attribution depends only on which stage dates are present, not on
      their values or chronological order. */
  lemma LastStageIgnoresDateValues(d1: Deal, d2: Deal)
    requires forall s :: Entered(d1, s) <==> Entered(d2, s)
    ensures LastStage(d1) == LastStage(d2)
  {
  }

  /** The labels never collide, so comparing the label column with
      "Contract Negotiation" selects exactly the deals attributed there. */
  lemma LabelIsNegotiation(a: Attribution)
    ensures Label(a) == "Contract Negotiation" <==> a == Reached(ContractNegotiation)
  {
  }

  /** A deal that entered Contract Negotiation is attributed to it whatever
      its other dates, and only such deals are. */
  lemma LastStageNegotiation(d: Deal)
    ensures LastStage(d) == Reached(ContractNegotiation) <==> Entered(d, ContractNegotiation)
  {
  }

  /** The outcome of a deal. */
  datatype Outcome = Won | Lost | Open

  /** "Won" if closed-won, else "Lost" if closed, else "Open". The closed-won
      flag is trusted on its own: a deal marked won but not closed is Won. */
  function Classify(d: Deal): (r: Outcome)
    ensures r == Won <==> d.isClosedWon
    ensures r == Lost <==> d.isClosed && !d.isClosedWon
    ensures r == Open <==> !d.isClosed && !d.isClosedWon
  {
    if d.isClosedWon then Won
    else if d.isClosed then Lost
    else Open
  }
}

=== FILE: funnel.dfy ===
/** The sales-funnel aggregates: the lost deals and where they were lost,
    the per-stage funnel counts and the outcomes of the deals that reached
    Contract Negotiation. */
module Funnel {
  import opened Wrappers
  import opened Seqs
  import opened Deals
  import opened Ratios

  /** Closed but not won. */
  predicate IsLost(d: Deal) {
    d.isClosed && !d.isClosedWon
  }

  /** `lost_deals`: the closed deals that were not won, in their original
      order, each kept as many times as it occurs in `deals`, so that its
      length is the number of lost rows. */
  function LostDeals(deals: seq<Deal>): (r: seq<Deal>)
    ensures forall d :: d in r <==> d in deals && d.isClosed && !d.isClosedWon
    ensures forall d :: multiset(r)[d] == if d.isClosed && !d.isClosedWon then multiset(deals)[d] else 0
  {
    FilterMultiplicity(deals, IsLost);
    Filter(deals, IsLost)
  }

  /** The mask `last_stage == "Contract Negotiation"`. */
  predicate LabelledNegotiation(d: Deal) {
    Label(LastStage(d)) == "Contract Negotiation"
  }

  /** `lost_in_neg`: the number of lost deals whose last stage is Contract Negotiation. */
  function LostInNegotiation(deals: seq<Deal>): (r: nat)
    ensures r <= |LostDeals(deals)|
  {
    |Filter(LostDeals(deals), LabelledNegotiation)|
  }

  /** `pct_lost_in_neg` as a ratio. The source divides by the number of lost
      deals without a guard (0/0 gives NaN, which `round` rejects), so at
      least one lost deal is required. */
  function LostInNegotiationShare(deals: seq<Deal>): (r: Ratio)
    requires |LostDeals(deals)| > 0
    ensures IsPercentage(r)
    ensures r.den == |LostDeals(deals)|
  {
    Ratio(LostInNegotiation(deals), |LostDeals(deals)|)
  }

  /** With at least one lost deal, the lost-at-negotiation share is the pie's
      Lost slice over the number of lost rows. */
  lemma LostShareIsLostSlice(deals: seq<Deal>)
    requires |LostDeals(deals)| > 0
    ensures LostInNegotiationShare(deals) == Ratio(OutcomeCount(deals, Lost), |LostDeals(deals)|)
  {
    LostInNegotiationIsLostSlice(deals);
  }

  /** The mask `deals[col].notna()` for one stage column. */
  function EnteredMask(s: Stage): Deal -> bool {
    (d: Deal) => Entered(d, s)
  }

  /** The funnel bar of stage `s`: the number of rows with an entry date for
      it, 0 exactly when no deal has one and all deals exactly when every deal
      has one. */
  function EnteredCount(deals: seq<Deal>, s: Stage): (r: nat)
    ensures r == |IndicesWhere(deals, EnteredMask(s))|
    ensures r <= |deals|
    ensures r == 0 <==> forall d :: d in deals ==> !Entered(d, s)
    ensures r == |deals| <==> forall d :: d in deals ==> Entered(d, s)
  {
    var kept := Filter(deals, EnteredMask(s));
    FilterCountsIndices(deals, EnteredMask(s));
    FilterAll(deals, EnteredMask(s));
    assert |kept| > 0 ==> kept[0] in kept;
    |kept|
  }

  /** `funnel_data`: one count per stage, in pipeline order, each computed
      independently of the others. */
  function FunnelCounts(deals: seq<Deal>): (r: seq<nat>)
    ensures |r| == |Pipeline|
    ensures forall i :: 0 <= i < |r| ==> r[i] == EnteredCount(deals, Pipeline[i])
  {
    seq(|Pipeline|, i requires 0 <= i < |Pipeline| => EnteredCount(deals, Pipeline[i]))
  }

  /** Funnel counts may grow along the pipeline, because a deal can skip a
      stage: one deal with only a Pitching date counts for Pitching and not
      for Pre-pitch. */
  lemma FunnelNotMonotone()
    ensures exists deals :: FunnelCounts(deals)[0] < FunnelCounts(deals)[1]
  {
    var d := Deal(1, None, false, false, None, None, Some(24300), None, None, None);
    assert Filter([d], EnteredMask(PrePitch)) == [];
    assert Filter([d], EnteredMask(Pitching)) == [d];
    assert FunnelCounts([d])[0] < FunnelCounts([d])[1];
  }

  /** Every deal attributed to stage `s` is counted in the funnel bar of `s`. */
  lemma FunnelCoversAttribution(deals: seq<Deal>, s: Stage)
    ensures |Filter(deals, (d: Deal) => LastStage(d) == Reached(s))| <= EnteredCount(deals, s)
  {
    FilterMono(deals, (d: Deal) => LastStage(d) == Reached(s), EnteredMask(s));
  }

  /** `neg_deals`: the deals with a Contract Negotiation entry date. */
  function NegotiationDeals(deals: seq<Deal>): (r: seq<Deal>)
    ensures |r| == EnteredCount(deals, ContractNegotiation)
    ensures forall d :: d in r <==> d in deals && Entered(d, ContractNegotiation)
  {
    Filter(deals, EnteredMask(ContractNegotiation))
  }

  /** The mask `outcome == o`. */
  function OutcomeMask(o: Outcome): Deal -> bool {
    (d: Deal) => Classify(d) == o
  }

  /** The number of negotiation deals with outcome `o` (a slice of the pie). */
  function OutcomeCount(deals: seq<Deal>, o: Outcome): nat {
    |Filter(NegotiationDeals(deals), OutcomeMask(o))|
  }

  /** Won, Lost and Open partition the negotiation deals. */
  lemma OutcomesPartitionNegotiation(deals: seq<Deal>)
    ensures OutcomeCount(deals, Won) + OutcomeCount(deals, Lost) + OutcomeCount(deals, Open)
            == EnteredCount(deals, ContractNegotiation)
  {
    FilterPartition3(NegotiationDeals(deals), OutcomeMask(Won), OutcomeMask(Lost), OutcomeMask(Open));
  }

  /** The "Lost at Contract Negotiation" metric equals the Lost slice of the
      negotiation-outcome pie: both count the lost deals with a Contract
      Negotiation date. */
  lemma LostInNegotiationIsLostSlice(deals: seq<Deal>)
    ensures LostInNegotiation(deals) == OutcomeCount(deals, Lost)
  {
    forall d ensures LabelledNegotiation(d) <==> EnteredMask(ContractNegotiation)(d) {
      LabelIsNegotiation(LastStage(d));
      LastStageNegotiation(d);
    }
    FilterExt(Filter(deals, IsLost), LabelledNegotiation, EnteredMask(ContractNegotiation));
    FilterCommute(deals, IsLost, EnteredMask(ContractNegotiation));
    FilterExt(NegotiationDeals(deals), IsLost, OutcomeMask(Lost));
  }

  /** The tally contribution of one deal to outcome `o`. */
  function Contribution(d: Deal, o: Outcome): nat {
    if Entered(d, ContractNegotiation) && Classify(d) == o then 1 else 0
  }

  /** Extending the deal table by one deal adds it to at most one slice. */
  lemma OutcomeCountSnoc(deals: seq<Deal>, d: Deal, o: Outcome)
    ensures OutcomeCount(deals + [d], o) == OutcomeCount(deals, o) + Contribution(d, o)
  {
  }

  /** Tallying one more deal of the table. */
  lemma TallyStep(deals: seq<Deal>, i: nat)
    requires i < |deals|
    ensures OutcomeCount(deals[..i + 1], Won) == OutcomeCount(deals[..i], Won) + Contribution(deals[i], Won)
    ensures OutcomeCount(deals[..i + 1], Lost) == OutcomeCount(deals[..i], Lost) + Contribution(deals[i], Lost)
    ensures OutcomeCount(deals[..i + 1], Open) == OutcomeCount(deals[..i], Open) + Contribution(deals[i], Open)
  {
    assert deals[..i + 1] == deals[..i] + [deals[i]];
    OutcomeCountSnoc(deals[..i], deals[i], Won);
    OutcomeCountSnoc(deals[..i], deals[i], Lost);
    OutcomeCountSnoc(deals[..i], deals[i], Open);
  }

  /** One pass over the deals tallying the outcomes of the negotiation deals;
      it agrees with the three pie slices and the tallies add up to the
      number of negotiation deals. */
  method TallyOutcomes(deals: seq<Deal>) returns (won: nat, lost: nat, open: nat)
    ensures won == OutcomeCount(deals, Won)
    ensures lost == OutcomeCount(deals, Lost)
    ensures open == OutcomeCount(deals, Open)
    ensures won + lost + open == EnteredCount(deals, ContractNegotiation)
  {
    won, lost, open := 0, 0, 0;
    var i := 0;
    while i < |deals|
      invariant 0 <= i <= |deals|
      invariant won == OutcomeCount(deals[..i], Won)
      invariant lost == OutcomeCount(deals[..i], Lost)
      invariant open == OutcomeCount(deals[..i], Open)
    {
      TallyStep(deals, i);
      var d := deals[i];
      won := won + Contribution(d, Won);
      lost := lost + Contribution(d, Lost);
      open := open + Contribution(d, Open);
      i := i + 1;
    }
    assert deals[..i] == deals;
    OutcomesPartitionNegotiation(deals);
  }
}

=== FILE: ratios.dfy ===
/** Percentages as exact ratios of two counts rather than rounded floats. */
module Ratios {

  /** `100 * num / den` percent. */
  datatype Ratio = Ratio(num: nat, den: nat)

  /** A ratio whose denominator is non-zero and whose percentage lies
      between 0 and 100. */
  predicate IsPercentage(r: Ratio) {
    r.den > 0 && r.num <= r.den
  }
}

=== FILE: retention.dfy ===
/** The cohort retention table: users grouped by the month of their first
    event, and for each cohort the number of distinct users active 0, 1, 2
    and 3 months after it. */
module Retention {
  import opened Wrappers
  import opened Seqs
  import opened Ratios
  import opened Calendar

  type UserId = int

  /** One backend event, its timestamp already truncated to its month. */
  datatype Event = Event(user: UserId, month: Month)

  /** Whether user `u` has an event. */
  ghost predicate HasEvent(events: seq<Event>, u: UserId) {
    exists i :: 0 <= i < |events| && events[i].user == u
  }

  /** The earliest month among user `u`'s events, `None` for a user without
      events (`groupby("user_id")["month"].min()`). */
  function FirstMonth(events: seq<Event>, u: UserId): (r: Option<Month>)
    ensures r.None? <==> !HasEvent(events, u)
    ensures r.Some? ==> exists i :: 0 <= i < |events| && events[i].user == u && events[i].month == r.value
    ensures r.Some? ==> forall i :: 0 <= i < |events| && events[i].user == u ==> r.value <= events[i].month
  {
    if events == [] then None
    else
      var init, e := events[..|events| - 1], events[|events| - 1];
      assert events == init + [e];
      assert forall i :: 0 <= i < |init| ==> init[i] == events[i];
      var rest := FirstMonth(init, u);
      if e.user != u then rest
      else match rest
        case None => Some(e.month)
        case Some(m) => Some(if e.month < m then e.month else m)
  }

  /** The cohort of the user of event `i`: the month of that user's first event. */
  function CohortOf(events: seq<Event>, i: nat): (r: Month)
    requires i < |events|
    ensures r <= events[i].month
  {
    assert HasEvent(events, events[i].user);
    FirstMonth(events, events[i].user).value
  }

  /** The cohort month is the month of one of the user's own events. */
  lemma CohortWitness(events: seq<Event>, i: nat)
    requires i < |events|
    ensures exists j :: 0 <= j < |events| && events[j].user == events[i].user && events[j].month == CohortOf(events, i)
  {
    assert HasEvent(events, events[i].user);
  }

  /** `month_number` of event `i`: whole months from its user's cohort to the
      event. It is never negative, because the cohort is the minimum. */
  function MonthNumber(events: seq<Event>, i: nat): (r: int)
    requires i < |events|
    ensures r >= 0
  {
    events[i].month - CohortOf(events, i)
  }

  /** Every user has an event at offset 0 of their cohort. */
  lemma FirstEventHasOffsetZero(events: seq<Event>, i: nat)
    requires i < |events|
    ensures exists j :: 0 <= j < |events| && events[j].user == events[i].user && MonthNumber(events, j) == 0
  {
    CohortWitness(events, i);
    var j :| 0 <= j < |events| && events[j].user == events[i].user && events[j].month == CohortOf(events, i);
    assert CohortOf(events, j) == CohortOf(events, i);
  }

  /** The distinct users of cohort `c` with an event at offset `k`:
      `nunique` of one (cohort, month_number) group. */
  function ActiveUsers(events: seq<Event>, c: Month, k: int): set<UserId> {
    set i | 0 <= i < |events| && CohortOf(events, i) == c && MonthNumber(events, i) == k :: events[i].user
  }

  /** Anyone active at offset `k` of a cohort was active at its offset 0. */
  lemma RetainedUsersStarted(events: seq<Event>, c: Month, k: int)
    ensures ActiveUsers(events, c, k) <= ActiveUsers(events, c, 0)
  {
  }

  /** The set of cohort months. */
  function CohortSet(events: seq<Event>): set<Month> {
    set i | 0 <= i < |events| :: CohortOf(events, i)
  }

  /** The cohort months, each once, ascending: the index of the table. */
  function Cohorts(events: seq<Event>): (r: seq<Month>)
    ensures StrictlyIncreasing(r)
    ensures forall c :: c in r <==> c in CohortSet(events)
  {
    var column := seq(|events|, i requires 0 <= i < |events| => CohortOf(events, i));
    assert forall c :: c in column <==> c in CohortSet(events) by {
      forall c | c in CohortSet(events)
        ensures c in column
      {
        var i :| 0 <= i < |events| && CohortOf(events, i) == c;
        assert column[i] == c;
      }
    }
    SortedKeys(column)
  }

  /** One row of the table: the cohort, its starting users M0 and the users
      active in M1, M2 and M3; a (cohort, offset) pair without events is 0. */
  datatype CohortRow = CohortRow(cohort: Month, m0: nat, m1: nat, m2: nat, m3: nat) {
    /** The count at offset `k`. */
    function Active(k: nat): nat
      requires k <= 3
    {
      match k
      case 0 => m0
      case 1 => m1
      case 2 => m2
      case 3 => m3
    }
  }

  /** The counts of cohort `c` at offsets 0 to 3. */
  function RowOf(events: seq<Event>, c: Month): (r: CohortRow)
    ensures r.cohort == c
    ensures forall k :: 0 <= k <= 3 ==> r.Active(k) == |ActiveUsers(events, c, k)|
  {
    CohortRow(c, |ActiveUsers(events, c, 0)|, |ActiveUsers(events, c, 1)|,
                 |ActiveUsers(events, c, 2)|, |ActiveUsers(events, c, 3)|)
  }

  /** The table before the last row is dropped: one row per cohort, ascending. */
  function AllRows(events: seq<Event>): (r: seq<CohortRow>)
    ensures |r| == |Cohorts(events)|
    ensures forall j :: 0 <= j < |r| ==> r[j] == RowOf(events, Cohorts(events)[j])
  {
    var cs := Cohorts(events);
    seq(|cs|, j requires 0 <= j < |cs| => RowOf(events, cs[j]))
  }

  /** `retention`: the table without its last row, the most recent cohort. */
  function RetentionTable(events: seq<Event>): (r: seq<CohortRow>)
    ensures forall j :: 0 <= j < |r| ==> r[j] == RowOf(events, r[j].cohort)
    ensures forall j1, j2 :: 0 <= j1 < j2 < |r| ==> r[j1].cohort < r[j2].cohort
  {
    var all := AllRows(events);
    if all == [] then [] else all[..|all| - 1]
  }

  /** Every cohort has at least one starting user. */
  lemma CohortHasStarter(events: seq<Event>, i: nat)
    requires i < |events|
    ensures |ActiveUsers(events, CohortOf(events, i), 0)| >= 1
  {
    FirstEventHasOffsetZero(events, i);
    var j :| 0 <= j < |events| && events[j].user == events[i].user && MonthNumber(events, j) == 0;
    assert CohortOf(events, j) == CohortOf(events, i);
    assert events[j].user in ActiveUsers(events, CohortOf(events, i), 0);
  }

  /** The counts of a cohort's row are bounded by its starting users, of
      which there is at least one. */
  lemma RowBounded(events: seq<Event>, c: Month)
    requires c in CohortSet(events)
    ensures RowOf(events, c).m0 >= 1
    ensures forall k :: 1 <= k <= 3 ==> RowOf(events, c).Active(k) <= RowOf(events, c).m0
  {
    var i :| 0 <= i < |events| && CohortOf(events, i) == c;
    CohortHasStarter(events, i);
    forall k | 1 <= k <= 3
      ensures RowOf(events, c).Active(k) <= RowOf(events, c).m0
    {
      RetainedUsersStarted(events, c, k);
      SubsetCardinality(ActiveUsers(events, c, k), ActiveUsers(events, c, 0));
    }
  }

  /** The greatest cohort month. */
  function LatestCohort(events: seq<Event>): (r: Month)
    requires |events| > 0
    ensures r in CohortSet(events)
    ensures forall c :: c in CohortSet(events) ==> c <= r
  {
    var cs := Cohorts(events);
    assert CohortOf(events, 0) in CohortSet(events);
    LastIsMaximum(cs);
    cs[|cs| - 1]
  }

  /** The table is the cohort index without its last entry. */
  lemma TableFollowsCohorts(events: seq<Event>)
    ensures |events| == 0 <==> Cohorts(events) == []
    ensures |events| == 0 ==> RetentionTable(events) == []
    ensures |events| > 0 ==> |RetentionTable(events)| == |Cohorts(events)| - 1
    ensures forall j :: 0 <= j < |RetentionTable(events)| ==> RetentionTable(events)[j].cohort == Cohorts(events)[j]
  {
  }

  /** The table has one row fewer than there are cohorts. */
  lemma RetentionRowCount(events: seq<Event>)
    ensures |events| == 0 ==> RetentionTable(events) == []
    ensures |events| > 0 ==> |RetentionTable(events)| == |CohortSet(events)| - 1
  {
    var cs := Cohorts(events);
    IncreasingIsDistinct(cs);
    DistinctCardinality(cs);
    assert Elems(cs) == CohortSet(events);
    TableFollowsCohorts(events);
  }

  /** The table shows exactly the cohorts before the greatest: the most
      recent cohort never appears and every earlier one does. */
  lemma RetentionDropsLatest(events: seq<Event>)
    requires |events| > 0
    ensures forall c :: (exists j :: 0 <= j < |RetentionTable(events)| && RetentionTable(events)[j].cohort == c)
                        <==> c in CohortSet(events) && c < LatestCohort(events)
  {
    var cs := Cohorts(events);
    var r := RetentionTable(events);
    TableFollowsCohorts(events);
    LastIsMaximum(cs);
    assert LatestCohort(events) == cs[|cs| - 1];
    var earlier := cs[..|cs| - 1];
    forall c | c in earlier
      ensures exists j :: 0 <= j < |r| && r[j].cohort == c
    {
      var j :| 0 <= j < |earlier| && earlier[j] == c;
      assert r[j].cohort == c;
    }
  }

  /** Every row of the table has starting users and its later counts never
      exceed them. */
  lemma RetentionBounded(events: seq<Event>, j: nat)
    requires j < |RetentionTable(events)|
    ensures RetentionTable(events)[j].m0 >= 1
    ensures forall k :: 1 <= k <= 3 ==> RetentionTable(events)[j].Active(k) <= RetentionTable(events)[j].m0
  {
    var c := RetentionTable(events)[j].cohort;
    assert c == Cohorts(events)[j];
    assert c in Cohorts(events);
    RowBounded(events, c);
  }

  /** A (cohort, offset) cell is 0 exactly when no user of that cohort has an
      event at that offset. */
  lemma ZeroCell(events: seq<Event>, c: Month, k: int)
    ensures |ActiveUsers(events, c, k)| == 0 <==>
      forall i :: 0 <= i < |events| && CohortOf(events, i) == c ==> MonthNumber(events, i) != k
  {
    if exists i :: 0 <= i < |events| && CohortOf(events, i) == c && MonthNumber(events, i) == k {
      var i :| 0 <= i < |events| && CohortOf(events, i) == c && MonthNumber(events, i) == k;
      assert events[i].user in ActiveUsers(events, c, k);
    }
  }

  /** The retention of month `k` of a row, `Mk / M0`. */
  function RetentionRate(row: CohortRow, k: nat): (r: Ratio)
    requires 1 <= k <= 3 && row.m0 >= 1
    ensures r.num == 0 <==> row.Active(k) == 0
    ensures IsPercentage(r) <==> row.Active(k) <= row.m0
  {
    Ratio(row.Active(k), row.m0)
  }

  /** Every retention percentage of the table lies between 0 and 100 and has
      a non-zero denominator. */
  lemma RetentionRatesArePercentages(events: seq<Event>, j: nat, k: nat)
    requires j < |RetentionTable(events)| && 1 <= k <= 3
    ensures RetentionTable(events)[j].m0 >= 1
    ensures IsPercentage(RetentionRate(RetentionTable(events)[j], k))
  {
    RetentionBounded(events, j);
  }

  /** The Mk percentage of a table row is the number of the cohort's users
      active at offset `k` over the number active at offset 0. */
  lemma TableRetentionRate(events: seq<Event>, j: nat, k: nat)
    requires j < |RetentionTable(events)| && 1 <= k <= 3
    ensures RetentionTable(events)[j].m0 >= 1
    ensures RetentionRate(RetentionTable(events)[j], k) ==
      Ratio(|ActiveUsers(events, RetentionTable(events)[j].cohort, k)|,
            |ActiveUsers(events, RetentionTable(events)[j].cohort, 0)|)
  {
    RetentionBounded(events, j);
  }

  /** The error pandas raises when a column that is read does not exist. */
  datatype KeyError = MissingColumn(name: string)

  /** Whether some event has offset `k`, so that `unstack` creates column `k`. */
  predicate OffsetObserved(events: seq<Event>, k: int) {
    exists i :: 0 <= i < |events| && MonthNumber(events, i) == k
  }

  /** The table as the code computes it: `unstack` creates a column only for
      the offsets that occur somewhere in the data, so reading the M1, M2 and
      M3 columns raises a KeyError (for the first one read) when no user of
      any cohort was active at that offset. Otherwise it is the table. */
  function RetentionAsWritten(events: seq<Event>): (r: Result<seq<CohortRow>, KeyError>)
    ensures r.Failure? <==> exists k :: 1 <= k <= 3 && !OffsetObserved(events, k)
    ensures r.Success? ==> r.value == RetentionTable(events)
  {
    if !OffsetObserved(events, 1) then Failure(MissingColumn("M1"))
    else if !OffsetObserved(events, 2) then Failure(MissingColumn("M2"))
    else if !OffsetObserved(events, 3) then Failure(MissingColumn("M3"))
    else Success(RetentionTable(events))
  }

  /** The event log of two users who each appear in a single, different month. */
  function SparseEvents(): seq<Event> {
    [Event(1, 100), Event(2, 101)]
  }

  /** In `SparseEvents` every event opens its user's cohort. */
  lemma SparseEventsCohorts()
    ensures CohortOf(SparseEvents(), 0) == 100 && CohortOf(SparseEvents(), 1) == 101
    ensures MonthNumber(SparseEvents(), 0) == 0 && MonthNumber(SparseEvents(), 1) == 0
    ensures Cohorts(SparseEvents()) == [100, 101]
  {
    var events := SparseEvents();
    assert FirstMonth(events, 1) == Some(100);
    assert FirstMonth(events, 2) == Some(101);
    assert CohortOf(events, 0) == 100 && CohortOf(events, 1) == 101;
    assert CohortSet(events) == {100, 101};
    var cs := Cohorts(events);
    IncreasingIsDistinct(cs);
    DistinctCardinality(cs);
    assert Elems(cs) == {100, 101};
    assert cs[0] in Elems(cs) && cs[1] in Elems(cs);
  }

  /** On `SparseEvents` the code fails on the missing M1 column, while the
      table with absent cells read as 0 has one row: the earlier cohort, with
      one starting user and no returns. */
  lemma AsWrittenFailsOnSparseData()
    ensures RetentionAsWritten(SparseEvents()) == Failure(MissingColumn("M1"))
    ensures RetentionTable(SparseEvents()) == [CohortRow(100, 1, 0, 0, 0)]
  {
    var events := SparseEvents();
    SparseEventsCohorts();
    assert !OffsetObserved(events, 1);
    assert ActiveUsers(events, 100, 0) == {1};
    assert ActiveUsers(events, 100, 1) == {};
    assert ActiveUsers(events, 100, 2) == {};
    assert ActiveUsers(events, 100, 3) == {};
  }

  /** One user active in January, February and April 2024. */
  function JanFebAprEvents(): seq<Event> {
    [Event(7, PeriodOf(2024, 1)), Event(7, PeriodOf(2024, 2)), Event(7, PeriodOf(2024, 4))]
  }

  /** In `JanFebAprEvents` every event has the January cohort, and January
      is the only cohort. */
  lemma JanFebAprCohorts()
    ensures forall i :: 0 <= i < 3 ==> CohortOf(JanFebAprEvents(), i) == PeriodOf(2024, 1)
    ensures Cohorts(JanFebAprEvents()) == [PeriodOf(2024, 1)]
  {
    var events := JanFebAprEvents();
    var jan := PeriodOf(2024, 1);
    assert FirstMonth(events, 7) == Some(jan);
    assert forall i :: 0 <= i < 3 ==> events[i].user == 7;
    assert CohortOf(events, 0) == jan;
    assert CohortSet(events) == {jan};
    var cs := Cohorts(events);
    IncreasingIsDistinct(cs);
    DistinctCardinality(cs);
    assert Elems(cs) == {jan};
    assert cs[0] in Elems(cs);
  }

  /** A user active in January, February and April 2024: the user belongs to
      the January cohort, with offsets 0, 1 and 3 and nobody counted in M2. As written the code fails
      on the absent M2 column; and since January is the only cohort, the
      table without the latest cohort is empty, so no M2 share is shown. */
  lemma JanFebAprScenario()
    ensures CohortOf(JanFebAprEvents(), 0) == PeriodOf(2024, 1)
    ensures MonthNumber(JanFebAprEvents(), 0) == 0
    ensures MonthNumber(JanFebAprEvents(), 1) == 1
    ensures MonthNumber(JanFebAprEvents(), 2) == 3
    ensures ActiveUsers(JanFebAprEvents(), PeriodOf(2024, 1), 2) == {}
    ensures RetentionAsWritten(JanFebAprEvents()) == Failure(MissingColumn("M2"))
    ensures RetentionTable(JanFebAprEvents()) == []
  {
    var events := JanFebAprEvents();
    JanFebAprCohorts();
    assert MonthNumber(events, 1) == 1;
    assert OffsetObserved(events, 1);
    assert !OffsetObserved(events, 2);
    assert |AllRows(events)| == 1;
  }
}

=== FILE: seqs.dfy ===
/** Sequence helpers shared by the aggregations: boolean-mask filtering,
    order-of-appearance de-duplication (pandas `unique`) and the sorted,
    de-duplicated key list that a pandas `groupby` produces as its index. */
module Seqs {

  /** No element occurs twice. */
  ghost predicate Distinct<T>(s: seq<T>) {
    forall i, j :: 0 <= i < j < |s| ==> s[i] != s[j]
  }

  /** Strictly ascending, hence also free of duplicates. */
  ghost predicate StrictlyIncreasing(s: seq<int>) {
    forall i, j :: 0 <= i < j < |s| ==> s[i] < s[j]
  }

  /** The set of the elements of `s`. */
  function Elems<T>(s: seq<T>): set<T> {
    set x | x in s
  }

  /** The elements of `s` that satisfy `p`, in their original order: the
      rows a boolean mask keeps. */
  function Filter<T(!new)>(s: seq<T>, p: T -> bool): (r: seq<T>)
    ensures |r| <= |s|
    ensures forall x :: x in r <==> x in s && p(x)
    ensures forall i :: 0 <= i < |r| ==> p(r[i])
  {
    if s == [] then []
    else
      var rest := Filter(s[..|s| - 1], p);
      assert s == s[..|s| - 1] + [s[|s| - 1]];
      if p(s[|s| - 1]) then rest + [s[|s| - 1]] else rest
  }

  /** Filtering a sequence extended by one element. */
  lemma FilterSnoc<T(!new)>(s: seq<T>, x: T, p: T -> bool)
    ensures Filter(s + [x], p) == if p(x) then Filter(s, p) + [x] else Filter(s, p)
  {
  }

  /** A mask keeps each selected element exactly as often as it occurs and
      drops every other element, so the mask fixes the number of rows kept. */
  lemma {:induction false} FilterMultiplicity<T(!new)>(s: seq<T>, p: T -> bool)
    ensures forall x :: multiset(Filter(s, p))[x] == if p(x) then multiset(s)[x] else 0
  {
    if s != [] {
      var init, y := s[..|s| - 1], s[|s| - 1];
      assert s == init + [y];
      FilterMultiplicity(init, p);
    }
  }

  /** The positions of the elements of `s` that satisfy `p`: the rows where a
      boolean mask is true. */
  function IndicesWhere<T>(s: seq<T>, p: T -> bool): set<int> {
    set i | 0 <= i < |s| && p(s[i])
  }

  /** A mask keeps as many rows as it has true positions. */
  lemma {:induction false} FilterCountsIndices<T(!new)>(s: seq<T>, p: T -> bool)
    ensures |Filter(s, p)| == |IndicesWhere(s, p)|
  {
    if s != [] {
      var init, x := s[..|s| - 1], s[|s| - 1];
      assert s == init + [x];
      FilterCountsIndices(init, p);
      var before := IndicesWhere(init, p);
      assert |s| - 1 !in before;
      if p(x) {
        assert IndicesWhere(s, p) == before + {|s| - 1};
      } else {
        assert IndicesWhere(s, p) == before;
      }
    }
  }

  /** A mask keeps every row exactly when every element satisfies it. */
  lemma {:induction false} FilterAll<T(!new)>(s: seq<T>, p: T -> bool)
    ensures |Filter(s, p)| == |s| <==> forall x :: x in s ==> p(x)
  {
    if s != [] {
      var init, x := s[..|s| - 1], s[|s| - 1];
      assert s == init + [x];
      FilterAll(init, p);
      assert forall y :: y in s <==> y in init || y == x;
    }
  }

  /** Two masks that agree on every element keep the same rows. */
  lemma {:induction false} FilterExt<T(!new)>(s: seq<T>, p: T -> bool, q: T -> bool)
    requires forall x :: x in s ==> (p(x) <==> q(x))
    ensures Filter(s, p) == Filter(s, q)
  {
    if s != [] {
      FilterExt(s[..|s| - 1], p, q);
      assert s[|s| - 1] in s;
    }
  }

  /** A mask that keeps at least what another keeps selects at least as many rows. */
  lemma {:induction false} FilterMono<T(!new)>(s: seq<T>, p: T -> bool, q: T -> bool)
    requires forall x :: x in s && p(x) ==> q(x)
    ensures |Filter(s, p)| <= |Filter(s, q)|
  {
    if s != [] {
      FilterMono(s[..|s| - 1], p, q);
      assert s[|s| - 1] in s;
    }
  }

  /** Applying two masks one after the other does not depend on their order. */
  lemma {:induction false} FilterCommute<T(!new)>(s: seq<T>, p: T -> bool, q: T -> bool)
    ensures Filter(Filter(s, p), q) == Filter(Filter(s, q), p)
  {
    if s != [] {
      var init, x := s[..|s| - 1], s[|s| - 1];
      assert s == init + [x];
      FilterCommute(init, p, q);
      var fp, fq := Filter(init, p), Filter(init, q);
      FilterSnoc(init, x, p);
      FilterSnoc(init, x, q);
      FilterSnoc(fp, x, q);
      FilterSnoc(fq, x, p);
    }
  }

  /** Three masks that classify every element into exactly one class split
      the sequence: the class sizes add up to its length. */
  lemma {:induction false} FilterPartition3<T(!new)>(s: seq<T>, p: T -> bool, q: T -> bool, r: T -> bool)
    requires forall x :: x in s ==> (p(x) || q(x) || r(x))
    requires forall x :: x in s ==> !(p(x) && q(x)) && !(p(x) && r(x)) && !(q(x) && r(x))
    ensures |Filter(s, p)| + |Filter(s, q)| + |Filter(s, r)| == |s|
  {
    if s != [] {
      FilterPartition3(s[..|s| - 1], p, q, r);
      assert s[|s| - 1] in s;
    }
  }

  /** The distinct values of `s` in order of first appearance (pandas `unique`). */
  function Unique<T(==,!new)>(s: seq<T>): (r: seq<T>)
    ensures Distinct(r)
    ensures forall x :: x in r <==> x in s
    ensures |r| <= |s|
  {
    if s == [] then []
    else
      var r := Unique(s[..|s| - 1]);
      var x := s[|s| - 1];
      assert s == s[..|s| - 1] + [x];
      if x in r then r else r + [x]
  }

  /** A duplicate-free sequence has exactly as many elements as its set. */
  lemma {:induction false} DistinctCardinality<T>(s: seq<T>)
    requires Distinct(s)
    ensures |Elems(s)| == |s|
  {
    if s != [] {
      var init, x := s[..|s| - 1], s[|s| - 1];
      assert Distinct(init);
      DistinctCardinality(init);
      assert s == init + [x];
      assert Elems(s) == Elems(init) + {x};
      assert x !in init;
    }
  }

  /** A subset has at most as many elements as its superset. */
  lemma {:induction false} SubsetCardinality<T>(a: set<T>, b: set<T>)
    requires a <= b
    ensures |a| <= |b|
  {
    if a != {} {
      var x :| x in a;
      SubsetCardinality(a - {x}, b - {x});
    }
  }

  /** Prepending an element below every element keeps a sequence strictly increasing. */
  lemma ConsIncreasing(x: int, s: seq<int>)
    requires StrictlyIncreasing(s)
    requires forall i :: 0 <= i < |s| ==> x < s[i]
    ensures StrictlyIncreasing([x] + s)
  {
  }

  /** Inserts `x` into a strictly increasing sequence, keeping it strictly
      increasing and not duplicating an element already present. */
  function InsertSorted(s: seq<int>, x: int): (r: seq<int>)
    requires StrictlyIncreasing(s)
    ensures StrictlyIncreasing(r)
    ensures forall y :: y in r <==> y in s || y == x
  {
    if s == [] then [x]
    else if x < s[0] then
      ConsIncreasing(x, s);
      [x] + s
    else if x == s[0] then s
    else
      var tail := InsertSorted(s[1..], x);
      assert forall i :: 0 <= i < |tail| ==> s[0] < tail[i] by {
        forall i | 0 <= i < |tail|
          ensures s[0] < tail[i]
        {
          assert tail[i] in tail;
        }
      }
      ConsIncreasing(s[0], tail);
      [s[0]] + tail
  }

  /** The distinct values of `xs` in ascending order: the index of a
      `groupby` over that column. */
  function SortedKeys(xs: seq<int>): (r: seq<int>)
    ensures StrictlyIncreasing(r)
    ensures forall y :: y in r <==> y in xs
  {
    if xs == [] then []
    else
      var init := xs[..|xs| - 1];
      assert xs == init + [xs[|xs| - 1]];
      InsertSorted(SortedKeys(init), xs[|xs| - 1])
  }

  /** The last element of a non-empty strictly increasing sequence is its
      maximum, and dropping it keeps exactly the elements below it. */
  lemma LastIsMaximum(s: seq<int>)
    requires StrictlyIncreasing(s) && |s| > 0
    ensures forall x :: x in s ==> x <= s[|s| - 1]
    ensures forall x :: x in s[..|s| - 1] <==> x in s && x < s[|s| - 1]
  {
  }

  /** A strictly increasing sequence has no duplicates. */
  lemma IncreasingIsDistinct(s: seq<int>)
    requires StrictlyIncreasing(s)
    ensures Distinct(s)
  {
  }
}

=== FILE: winrate.dfy ===
/** The win-rate trend: closed deals with a close date, grouped by close
    month, with Won and Lost tallies and the win rate per month. */
module WinRate {
  import opened Wrappers
  import opened Seqs
  import opened Calendar
  import opened Deals
  import opened Ratios
  import opened Funnel

  /** The rows the trend starts from: closed, with a parseable close date. */
  predicate IsClosedDated(d: Deal) {
    d.isClosed && d.closeDate.Some?
  }

  /** `closed`: the closed deals with a close date, in their original order. */
  function ClosedDeals(deals: seq<Deal>): (r: seq<Deal>)
    ensures forall d :: d in r <==> d in deals && IsClosedDated(d)
  {
    Filter(deals, IsClosedDated)
  }

  /** The mask `close_month == m`. */
  function InMonth(m: Month): Deal -> bool {
    (d: Deal) => d.closeDate == Some(m)
  }

  /** One row of `monthly`: a close month and its Won and Lost tallies. */
  datatype MonthRow = MonthRow(month: Month, won: nat, lost: nat) {
    /** The `total` column. */
    function Total(): nat {
      won + lost
    }
  }

  /** The row of month `m`: the closed deals of that month split by outcome,
      a missing Won column reading as 0. */
  function RowFor(closed: seq<Deal>, m: Month): MonthRow {
    var group := Filter(closed, InMonth(m));
    MonthRow(m, |Filter(group, OutcomeMask(Won))|, |Filter(group, OutcomeMask(Lost))|)
  }

  /** The rows of the months in `ks`, in the order of `ks`. */
  function RowsFor(closed: seq<Deal>, ks: seq<Month>): (r: seq<MonthRow>)
    ensures |r| == |ks|
    ensures forall i :: 0 <= i < |ks| ==> r[i] == RowFor(closed, ks[i]) && r[i].month == ks[i]
  {
    if ks == [] then []
    else RowsFor(closed, ks[..|ks| - 1]) + [RowFor(closed, ks[|ks| - 1])]
  }

  /** The `close_month` column of the closed deals. */
  function CloseMonths(closed: seq<Deal>): (r: seq<Month>)
    requires forall d :: d in closed ==> d.closeDate.Some?
    ensures forall m :: m in r <==> exists d :: d in closed && d.closeDate == Some(m)
  {
    var r := seq(|closed|, i requires 0 <= i < |closed| => closed[i].closeDate.value);
    assert forall m :: (exists d :: d in closed && d.closeDate == Some(m)) ==> m in r by {
      forall m | exists d :: d in closed && d.closeDate == Some(m)
        ensures m in r
      {
        var d :| d in closed && d.closeDate == Some(m);
        var i :| 0 <= i < |closed| && closed[i] == d;
        assert r[i] == m;
      }
    }
    assert forall i :: 0 <= i < |closed| ==> closed[i] in closed;
    r
  }

  /** Within the closed deals every row is Won or Lost and never both. */
  lemma RowPartitionsMonth(closed: seq<Deal>, m: Month)
    requires forall d :: d in closed ==> d.isClosed
    ensures RowFor(closed, m).Total() == |Filter(closed, InMonth(m))|
  {
  }

  /** A month's Won tally is 0 exactly when none of its closed deals was won. */
  lemma RowWonZero(closed: seq<Deal>, m: Month)
    ensures RowFor(closed, m).won == 0 <==> forall d :: d in closed && d.closeDate == Some(m) ==> !d.isClosedWon
  {
    var won := Filter(Filter(closed, InMonth(m)), OutcomeMask(Won));
    if |won| > 0 {
      assert won[0] in won;
    }
  }

  /** No row of a close month of some closed deal is empty. */
  lemma RowsNonEmpty(closed: seq<Deal>, ks: seq<Month>)
    requires forall d :: d in closed ==> d.isClosed
    requires forall m :: m in ks ==> exists d :: d in closed && d.closeDate == Some(m)
    ensures forall i :: 0 <= i < |ks| ==> RowsFor(closed, ks)[i].Total() >= 1
  {
  }

  /** `monthly`: one row per close month, in ascending month order. */
  function Monthly(deals: seq<Deal>): (r: seq<MonthRow>)
    ensures forall i, j :: 0 <= i < j < |r| ==> r[i].month < r[j].month
    ensures forall m :: (exists i :: 0 <= i < |r| && r[i].month == m) <==>
      exists d :: d in deals && IsClosedDated(d) && d.closeDate == Some(m)
    ensures forall i :: 0 <= i < |r| ==> r[i].Total() >= 1
    ensures forall i :: 0 <= i < |r| ==> r[i] == RowFor(ClosedDeals(deals), r[i].month)
  {
    var closed := ClosedDeals(deals);
    var ks := SortedKeys(CloseMonths(closed));
    RowsNonEmpty(closed, ks);
    RowsFor(closed, ks)
  }

  /** A month in which no closed deal was won is still reported, with a
      Won tally of 0 and so a win rate of 0. */
  lemma MonthlyReportsZeroWon(deals: seq<Deal>)
    ensures forall i :: 0 <= i < |Monthly(deals)| ==>
      (Monthly(deals)[i].won == 0 <==>
       forall d :: d in deals && IsClosedDated(d) && d.closeDate == Some(Monthly(deals)[i].month) ==> !d.isClosedWon)
  {
    var r := Monthly(deals);
    forall i | 0 <= i < |r|
      ensures r[i].won == 0 <==> forall d :: d in deals && IsClosedDated(d) && d.closeDate == Some(r[i].month) ==> !d.isClosedWon
    {
      RowWonZero(ClosedDeals(deals), r[i].month);
    }
  }

  /** The win rate of a month: Won over Won + Lost. */
  function WinRateOf(row: MonthRow): (r: Ratio)
    requires row.Total() >= 1
    ensures IsPercentage(r)
    ensures r.num == 0 <==> row.won == 0
    ensures r.num == r.den <==> row.lost == 0
  {
    Ratio(row.won, row.Total())
  }

  /** The win rate of every reported month is the number of its closed deals
      that were won over the number of its closed deals. */
  lemma MonthlyWinRate(deals: seq<Deal>)
    ensures forall i :: 0 <= i < |Monthly(deals)| ==>
      WinRateOf(Monthly(deals)[i]) ==
        Ratio(|Filter(Filter(ClosedDeals(deals), InMonth(Monthly(deals)[i].month)), OutcomeMask(Won))|,
              |Filter(ClosedDeals(deals), InMonth(Monthly(deals)[i].month))|)
  {
    var r := Monthly(deals);
    forall i | 0 <= i < |r|
      ensures WinRateOf(r[i]) ==
        Ratio(|Filter(Filter(ClosedDeals(deals), InMonth(r[i].month)), OutcomeMask(Won))|,
              |Filter(ClosedDeals(deals), InMonth(r[i].month))|)
    {
      RowPartitionsMonth(ClosedDeals(deals), r[i].month);
    }
  }

  /** The sum of the `total` column. */
  function SumTotals(rows: seq<MonthRow>): nat {
    if rows == [] then 0 else SumTotals(rows[..|rows| - 1]) + rows[|rows| - 1].Total()
  }

  /** Whether a deal's close month is one of `ks`. */
  predicate MonthAmong(d: Deal, ks: seq<Month>) {
    d.closeDate.Some? && d.closeDate.value in ks
  }

  /** One more closed deal raises the total of exactly the row of its month. */
  lemma {:induction false} SumTotalsSnoc(closed: seq<Deal>, x: Deal, ks: seq<Month>)
    requires Distinct(ks)
    requires forall d :: d in closed + [x] ==> d.isClosed
    ensures SumTotals(RowsFor(closed + [x], ks)) == SumTotals(RowsFor(closed, ks)) + if MonthAmong(x, ks) then 1 else 0
  {
    if ks != [] {
      var init, k := ks[..|ks| - 1], ks[|ks| - 1];
      assert ks == init + [k];
      assert Distinct(init);
      SumTotalsSnoc(closed, x, init);
      assert RowsFor(closed + [x], ks)[..|ks| - 1] == RowsFor(closed + [x], init);
      assert RowsFor(closed, ks)[..|ks| - 1] == RowsFor(closed, init);
      RowPartitionsMonth(closed + [x], k);
      RowPartitionsMonth(closed, k);
      FilterSnoc(closed, x, InMonth(k));
      assert MonthAmong(x, ks) <==> MonthAmong(x, init) || x.closeDate == Some(k);
      assert !(MonthAmong(x, init) && x.closeDate == Some(k));
    }
  }

  /** Grouping by distinct keys that cover every close month loses and
      duplicates no deal. */
  lemma {:induction false} SumTotalsCovers(closed: seq<Deal>, ks: seq<Month>)
    requires Distinct(ks)
    requires forall d :: d in closed ==> d.isClosed && MonthAmong(d, ks)
    ensures SumTotals(RowsFor(closed, ks)) == |closed|
  {
    if closed == [] {
      EmptyRowsTotal(ks);
    } else {
      var init, x := closed[..|closed| - 1], closed[|closed| - 1];
      assert closed == init + [x];
      SumTotalsCovers(init, ks);
      SumTotalsSnoc(init, x, ks);
    }
  }

  /** Rows computed from no deals add up to zero. */
  lemma {:induction false} EmptyRowsTotal(ks: seq<Month>)
    ensures SumTotals(RowsFor([], ks)) == 0
  {
    if ks != [] {
      EmptyRowsTotal(ks[..|ks| - 1]);
      assert RowsFor([], ks)[..|ks| - 1] == RowsFor([], ks[..|ks| - 1]);
    }
  }

  /** The monthly totals add up to the number of closed, dated deals. */
  lemma MonthlyTotalsCoverClosed(deals: seq<Deal>)
    ensures SumTotals(Monthly(deals)) == |ClosedDeals(deals)|
  {
    var closed := ClosedDeals(deals);
    var ks := SortedKeys(CloseMonths(closed));
    IncreasingIsDistinct(ks);
    SumTotalsCovers(closed, ks);
  }
}

=== FILE: wrappers.dfy ===
/** Two small wrappers: a nullable value (a dataframe cell that may be
    NaT / NaN) and the outcome of a computation that can raise. */
module Wrappers {

  /** A value that may be missing, as a coerced date or a NaN id is. */
  datatype Option<+T> = None | Some(value: T)

  /** Either a computed value or the error the computation raises. */
  datatype Result<+R, +E> = Success(value: R) | Failure(error: E)
}
